=== FILE: README.md ===
# absent-slacker-catchup: the transcript engine, in Dafny

This project models the part of absent-slacker-catchup that turns IRC log
records into readable chat text. It covers five pieces:

- rendering one record against the previous one (`Message.format`);
- the two-pass transcript fold of `generate_chat`;
- the acceptance filter of `get_messages`;
- the id-slicing step of `parse_message_from_tr`;
- the `</think>` split that `generate_html_summary` applies to the model's summary.

Strings are `seq<char>`. Timestamps are `int`, since only their order matters.
Inside the transcript text, timestamps appear only on the verbose line.
`Format` takes a parameter `show: Timestamp -> string` that stands for
`datetime.__str__` there. The HTML report also prints timestamps, but it is
not modelled.
Python's nickname `set` is passed as a `seq<string>`: it fixes the iteration
order, and the lemmas say what does and does not depend on that order.

Files and modules:

- `options.dfy` (`Options`): `Option`, Python's `None`-or-a-value.
- `pystr.dfy` (`PyStr`): the parts of Python's `str` the engine uses.
  - `isspace` is an explicit whitespace predicate.
  - `strip` is `RStrip(LStrip(s))`.
  - Splitting on and joining with a literal separator are modelled the same
    way `re.split` and `join` behave on a pattern with no special characters.
- `message.dfy` (`Messages`): the `Message` record, `__eq__`, id slicing,
  and `Format` with its properties.
- `chat.dfy` (`Chat`): the fold of `generate_chat` as a recursive function,
  and as the program's loops proved equal to it.
- `fetch.dfy` (`Fetch`): the filter loop of `get_messages`.
- `summary.dfy` (`Summary`): the `</think>` split and the thinking block.

## Model

| member | source | states |
|---|---|---|
| Messages.Equals | asc/message.py:58-66 | Two records compare equal exactly when timestamp, nickname and text all agree; anything that is not a Message is never equal |
| Messages.IdTimestampText | asc/message.py:78-83 | A missing or empty id gives no record. An id starting with `t` keeps at most 19 characters, taken from just after the `t`. Any other id is kept whole |
| Messages.IdRecoversIsoSeconds | asc/message.py:81-83 | For an id `t` + 19 characters + any suffix, the slice is exactly those 19 characters |
| Messages.FirstReply | asc/message.py:38-44 | The nickname loop stops at the first nickname, in iteration order, that the text starts with. It reports none only when no nickname is a prefix |
| Messages.FirstMatchIsUnique | asc/message.py:38-44 | Any position that is a prefix match with no earlier match is the one the loop reports |
| Messages.ReplyBody | asc/message.py:40-43 | The text left after the nickname is stripped, loses one leading colon and is stripped again; the result never begins or ends with whitespace |
| Messages.Format | asc/message.py:22-48 | No contract of its own: the three parts timestamp, header and body are concatenated. The lemmas in the rows that follow each characterise one case |
| Messages.PlainNeverShowsTime | asc/message.py:27-30 | Non-verbose output does not depend on how timestamps print and is exactly header followed by message |
| Messages.VerboseIsStampedPlain | asc/message.py:27-34 | Verbose output is the non-verbose output behind one timestamp line, and a continued turn drops that line |
| Messages.UnaddressedTextIsVerbatim | asc/message.py:24-34 | With no nickname at the start of the text, the output is timestamp line, "said" header and the unchanged text; a same-speaker follow-up is the bare text |
| Messages.ReplyHeaderWins | asc/message.py:38-48 | A text whose first matching nickname, in iteration order, is non-empty gets the "speaker replied to nick" header naming that nickname, even right after the same speaker |
| Messages.EmptyNicknameOnlyStrips | asc/message.py:37-47 | An empty nickname that is reached first strips the text (and one colon) but, being falsy, keeps the ordinary header |
| Messages.LaterCandidatesIgnored | asc/message.py:38-44 | Once the first match is found, the nicknames after it (longer ones included) do not change the output |
| Messages.UnambiguousReplyIgnoresOrder | asc/message.py:38-47 | When at most one nickname is a prefix of the text, any two orderings of the same nickname set give the same output |
| Messages.AmbiguousReplyDependsOnOrder | asc/message.py:38-44 | With "bob" and "bobby" both matching "bobby: hi", the two iteration orders give different transcripts |
| Messages.AddressedBody | asc/message.py:40-43 | For a rest of the form spaces, colon, body, the rendered body is exactly `strip(body)` |
| Messages.AddressedReply | asc/message.py:38-48 | When `nick` is the first matching nickname and is non-empty, a text `nick` + spaces + `:` + body renders as the timestamp part, the "speaker replied to nick" header and `strip(body)` |
| Messages.OnlyOneColonDropped | asc/message.py:42-43 | A second colon after the first stays in the body |
| Messages.UncolonedBodyIsStripped | asc/message.py:40-43 | A rest whose first non-whitespace character is not a colon is only stripped |
| Messages.ColonFreeBodyIsStripped | asc/message.py:40-43 | A rest containing no colon is only stripped |
| Messages.PartialNicknameStillReplies | asc/message.py:38-48 | `startswith` matches a bare prefix: with nickname "al", the text "alice: hi" is a reply to "al" with body "ice: hi" |
| PyStr.StripSpec | asc/message.py:40 | `strip` leaves a trimmed infix with only whitespace before and after it |
| PyStr.StripOf | asc/message.py:40 | Any trimmed core surrounded by whitespace strips to exactly that core |
| PyStr.Split | asc/cli.py:245 | Splitting on a literal tag yields at least one piece. Joining the pieces back gives the input. No piece contains the tag, and there is a single piece exactly when the tag does not occur |
| Chat.Render | asc/cli.py:166-173 | No contract of its own: the fold formats the first message against `prev` and the rest against it. Characterised by Chat.TranscriptIsConcatOfTurns and Chat.ThreeMessages |
| Chat.Transcript | asc/cli.py:176-181 | No contract of its own: the fold started from no previous message. Characterised by the same lemmas |
| Chat.ThreeMessages | asc/cli.py:176-181 | A three-message transcript is the first message alone, then the second against the first, then the third against the second |
| Chat.TranscriptIsConcatOfTurns | asc/cli.py:163-173 | The fold is the concatenation of each message rendered against the message immediately before it, or against none for the first |
| Chat.PlainRenderNeverShowsTime | asc/cli.py:176-181 | The non-verbose transcript does not depend on how timestamps print |
| Chat.RenderPass | asc/cli.py:176-181 | The loop that threads `prev_message` computes the fold |
| Chat.GenerateChat | asc/cli.py:161-181 | The displayed text is the fold with the caller's verbosity. `context.chat` ends as the non-verbose fold, with the first pass discarded. Both are empty for no messages |
| Chat.CollapsedTurnsMerge | asc/message.py:32-34 | Two consecutive turns by one speaker, neither starting with a nickname, and whose concatenation does not start with one either, render exactly like one message holding both texts joined with no separator, in plain and verbose output alike |
| Chat.RenderIgnoresOrder | asc/cli.py:176-181 | When no text starts with two different nicknames, any two orderings of the same nickname set give the same transcript |
| Chat.AliceAndBob | asc/cli.py:176-181 | For alice, alice, bob's "alice: good thanks", the second line loses its header and bob's line becomes a reply to alice with the address removed. This holds whichever order the set {alice, bob} is iterated in |
| Fetch.Keep | asc/cli.py:416-419 | No contract of its own: a record is kept when it is not before the cutoff and its nickname is not ignored. Used by Fetch.Accept and Fetch.GetMessages |
| Fetch.Accept | asc/cli.py:413-419 | Every accepted message is a record at or after the cutoff from a nickname that is not ignored. A message is accepted exactly when it is such a record among the rows |
| Fetch.AcceptEmbeds | asc/cli.py:413-421 | The accepted messages are an order-preserving subsequence of the parsed rows |
| Fetch.AcceptAppend | asc/cli.py:404-422 | Filtering day by day is the same as filtering all days' rows at once |
| Fetch.GetMessages | asc/cli.py:413-421 | Starting from empty, the loop leaves the accepted messages of all days in order, and the nickname set is exactly their speakers |
| Summary.Body | asc/cli.py:245-253 | The body is a tag-free suffix of the summary, preceded by `</think>` when the summary has one, and the whole summary otherwise |
| Summary.Thoughts | asc/cli.py:245-250 | The earlier pieces contain no tag, and there are none exactly when the summary has no tag |
| Summary.ThoughtsThenBody | asc/cli.py:245-253 | Joining the thoughts and the body with `</think>` gives back the summary |
| Summary.BodyIsAfterLastTag | asc/cli.py:245-253 | When the summary is any text, `</think>`, then a tag-free text, the body is that last text |
| Summary.ThinkingBlock | asc/cli.py:249-252 | No contract of its own: `<i>`, one `<p>` per thought, `</i>`. Characterised by Summary.OneTag and Summary.HtmlThinking |
| Summary.OneTag | asc/cli.py:245-253 | With one tag, the block is one paragraph of everything before it (an opening `<think>` included) and the body is what follows |
| Summary.HtmlThinking | asc/cli.py:245-253 | The program's steps give the thinking block and the body, and joining the thoughts and the body with the tag restores the summary; with no tag that is `<i></i>` and the whole summary |
| Summary.WrapThoughts | asc/cli.py:249-252 | The loop builds `<i>`, then one `<p>` element per thought in order, then `</i>` |

## Left out

- Fetching day logs over HTTP and the 404-terminated paging loop (asc/cli.py:404-412) are network I/O. `Fetch.GetMessages` instead takes each day's parsed rows as a parameter.
- HTML table parsing with BeautifulSoup and `datetime.fromisoformat` (asc/cli.py:426-444, asc/message.py:84-96) are library code. A row with a missing id, nick cell or text cell parses to `None` (asc/message.py:79-80, 88-89, 94-95), and the model takes each day's rows already parsed.
- Fetch.GetMessages: assumes every row parsed to a record or to `None`. It does not model the `ValueError` that `fromisoformat` raises on a malformed id (asc/message.py:84). That error aborts `get_messages`, because only the fetch is inside a `try` (asc/cli.py:405-411). It also does not model the `TypeError` that the comparison at asc/cli.py:416 raises when a timestamp carrying a UTC offset meets the naive cutoff. Timestamps are plain integers here.
- Messages.IdTimestampText: returns the text that would go to `fromisoformat`. It does not model that call raising on text it cannot parse, such as the empty slice of an id that is just `t`.
- Ollama summarisation and Piper speech synthesis (asc/cli.py:184-234) are external services.
- The regex clean-up of the summary before speech (asc/cli.py:219-225) depends on Unicode `\w`.
- In `generate_html_summary`, the `summary_text` substitution (asc/cli.py:246-248) computes a value that is never used.
- The HTML report's own timestamps (the date heading at asc/cli.py:336 and the row ids and times at asc/cli.py:366-368) are report formatting, not transcript text. The date heading reads the first accepted message, so when no message is accepted the program raises `IndexError` when the HTML report is generated, after the empty transcripts that `Chat.GenerateChat` produces.
- Markdown conversion, HTML and CSS output, `webbrowser`, file writes and `print` are output plumbing. The display pass's text is returned instead of printed and written.
- Timezone conversion with `pytz` and `datetime.now()` (asc/cli.py:397-403) use the clock and a timezone database. The cutoff is a parameter.
- Argument parsing, logging and command dispatch (asc/cli.py:54-130, 481-504) are out of scope.
- A transcript cannot be split back into the records' bodies. Consecutive turns by one speaker merge with no separator, as `Chat.CollapsedTurnsMerge` shows.
- Python's set iteration order is not modelled. The nickname set is a sequence in some order. `Messages.UnambiguousReplyIgnoresOrder` and `Chat.RenderIgnoresOrder` show that the order does not matter unless a text starts with two different nicknames. `Messages.AmbiguousReplyDependsOnOrder` shows that case.
- Python's `str.isspace` is modelled for the Unicode whitespace code points. Python's `strip` uses the same set.

=== FILE: chat.dfy ===
/**
  The transcript assembler of `generate_chat` (asc/cli.py): a left fold over
  the accepted messages that threads the previous message into each
  `Message.format` call, run once for display and once, never verbose, for
  the summariser.
 */
module Chat {
  import opened Options
  import opened Messages

  /**
    The fold: each message is rendered against the one before it (`prev` for
    the first), and the renderings are concatenated in order.
   */
  function Render(msgs: seq<Message>, prev: Option<Message>, nicks: seq<string>, verbose: bool,
                  show: Timestamp -> string): string
    decreases |msgs|
  {
    if |msgs| == 0 then ""
    else Format(msgs[0], prev, nicks, verbose, show) + Render(msgs[1..], Some(msgs[0]), nicks, verbose, show)
  }

  /** A whole transcript: the fold started with no previous message. */
  function Transcript(msgs: seq<Message>, nicks: seq<string>, verbose: bool,
                      show: Timestamp -> string): string
  {
    Render(msgs, None, nicks, verbose, show)
  }

  /** The message before position `i`, or none for the first. */
  function Previous(msgs: seq<Message>, i: int): Option<Message>
    requires 0 <= i < |msgs|
  {
    if i == 0 then None else Some(msgs[i - 1])
  }

  /** Each message's rendering against its immediate predecessor, position by position. */
  function Turns(msgs: seq<Message>, nicks: seq<string>, verbose: bool,
                 show: Timestamp -> string): (ts: seq<string>)
    ensures |ts| == |msgs|
    ensures forall i :: 0 <= i < |msgs| ==> ts[i] == Format(msgs[i], Previous(msgs, i), nicks, verbose, show)
  {
    seq(|msgs|, i requires 0 <= i < |msgs| => Format(msgs[i], Previous(msgs, i), nicks, verbose, show))
  }

  function Concat(ss: seq<string>): string
    decreases |ss|
  {
    if |ss| == 0 then "" else ss[0] + Concat(ss[1..])
  }

  /**
    The fold from position `k` onward, started from the message before `k`,
    is the concatenation of the turns from `k` onward.
   */
  lemma {:induction false} RenderSuffixIsTurns(msgs: seq<Message>, nicks: seq<string>, verbose: bool,
                                               show: Timestamp -> string, k: int)
    requires 0 <= k <= |msgs|
    ensures k < |msgs| ==>
      Render(msgs[k..], Previous(msgs, k), nicks, verbose, show) == Concat(Turns(msgs, nicks, verbose, show)[k..])
    ensures k == |msgs| ==> Concat(Turns(msgs, nicks, verbose, show)[k..]) == ""
    decreases |msgs| - k
  {
    var ts := Turns(msgs, nicks, verbose, show);
    if k == |msgs| {
      assert ts[k..] == [];
    } else {
      RenderSuffixIsTurns(msgs, nicks, verbose, show, k + 1);
      assert msgs[k..][1..] == msgs[k + 1..];
      assert ts[k..][1..] == ts[k + 1..];
      if k + 1 == |msgs| {
        assert msgs[k + 1..] == [];
      }
    }
  }

  /**
    The transcript is the concatenation of `format(m[i], m[i-1] or None)`:
    the previous message is always the immediately preceding one.
   */
  lemma TranscriptIsConcatOfTurns(msgs: seq<Message>, nicks: seq<string>, verbose: bool,
                                  show: Timestamp -> string)
    ensures Transcript(msgs, nicks, verbose, show) == Concat(Turns(msgs, nicks, verbose, show))
  {
    var ts := Turns(msgs, nicks, verbose, show);
    RenderSuffixIsTurns(msgs, nicks, verbose, show, 0);
    assert msgs[0..] == msgs;
    assert ts[0..] == ts;
  }

  /** The summariser's plain transcript never depends on how timestamps print. */
  lemma {:induction false} PlainRenderNeverShowsTime(msgs: seq<Message>, prev: Option<Message>,
                                                     nicks: seq<string>, show1: Timestamp -> string,
                                                     show2: Timestamp -> string)
    ensures Render(msgs, prev, nicks, false, show1) == Render(msgs, prev, nicks, false, show2)
    decreases |msgs|
  {
    if |msgs| > 0 {
      PlainNeverShowsTime(msgs[0], prev, nicks, show1, show2);
      PlainRenderNeverShowsTime(msgs[1..], Some(msgs[0]), nicks, show1, show2);
    }
  }

  /** One step of the fold: the first message against `prev`, then the rest against it. */
  lemma RenderStep(msgs: seq<Message>, i: int, prev: Option<Message>, nicks: seq<string>,
                   verbose: bool, show: Timestamp -> string)
    requires 0 <= i < |msgs|
    ensures Render(msgs[i..], prev, nicks, verbose, show)
         == Format(msgs[i], prev, nicks, verbose, show) + Render(msgs[i + 1..], Some(msgs[i]), nicks, verbose, show)
  {
    assert msgs[i..][1..] == msgs[i + 1..];
  }

  /** Appending one more turn to the text keeps "text so far + the rest of the fold" fixed. */
  lemma RenderAdvance(msgs: seq<Message>, i: int, prev: Option<Message>, text: string, turn: string,
                      nicks: seq<string>, verbose: bool, show: Timestamp -> string)
    requires 0 <= i < |msgs| && turn == Format(msgs[i], prev, nicks, verbose, show)
    ensures text + Render(msgs[i..], prev, nicks, verbose, show)
         == (text + turn) + Render(msgs[i + 1..], Some(msgs[i]), nicks, verbose, show)
  {
    RenderStep(msgs, i, prev, nicks, verbose, show);
  }

  /** One pass of `generate_chat`'s loop: format each message against the previous one and append. */
  method RenderPass(messages: seq<Message>, nicknames: seq<string>, verbose: bool,
                    show: Timestamp -> string)
    returns (text: string)
    ensures text == Transcript(messages, nicknames, verbose, show)
  {
    text := "";
    var prev: Option<Message> := None;
    for i := 0 to |messages|
      invariant prev == (if i == 0 then None else Some(messages[i - 1]))
      invariant text + Render(messages[i..], prev, nicknames, verbose, show)
             == Render(messages, None, nicknames, verbose, show)
    {
      var m := Format(messages[i], prev, nicknames, verbose, show);
      RenderAdvance(messages, i, prev, text, m, nicknames, verbose, show);
      text := text + m;
      prev := Some(messages[i]);
    }
    assert messages[|messages|..] == [];
  }

  /**
    `generate_chat`: the display pass (written to the chat file and printed)
    uses the caller's verbosity and also appends to `context.chat`; that text
    is then discarded and `context.chat` is rebuilt by a non-verbose pass.
   */
  method GenerateChat(messages: seq<Message>, nicknames: seq<string>, verbose: bool,
                      show: Timestamp -> string)
    returns (display: string, chat: string)
    ensures display == Transcript(messages, nicknames, verbose, show)
    ensures chat == Transcript(messages, nicknames, false, show)
    ensures |messages| == 0 ==> display == "" && chat == ""
  {
    chat := "";
    display := RenderPass(messages, nicknames, verbose, show);
    chat := chat + display;
    // The summary text starts over, without the display pass's output.
    chat := "";
    chat := RenderPass(messages, nicknames, false, show);
  }

  /**
    When every message's text starts with at most one nickname of the set, the
    transcript is the same whatever order the set is iterated in.
   */
  lemma {:induction false} RenderIgnoresOrder(msgs: seq<Message>, prev: Option<Message>, a: seq<string>,
                                              b: seq<string>, verbose: bool, show: Timestamp -> string)
    requires forall n :: n in a <==> n in b
    requires forall k :: 0 <= k < |msgs| ==> AtMostOneAddressee(a, msgs[k].text)
    ensures Render(msgs, prev, a, verbose, show) == Render(msgs, prev, b, verbose, show)
    decreases |msgs|
  {
    if |msgs| > 0 {
      assert AtMostOneAddressee(a, msgs[0].text);
      UnambiguousReplyIgnoresOrder(msgs[0], prev, a, b, verbose, show);
      assert forall k :: 0 <= k < |msgs| - 1 ==> msgs[1..][k] == msgs[k + 1];
      RenderIgnoresOrder(msgs[1..], Some(msgs[0]), a, b, verbose, show);
    }
  }

  /** A three-message transcript is its three turns, each against the message before it. */
  lemma ThreeMessages(m1: Message, m2: Message, m3: Message, nicks: seq<string>, verbose: bool,
                      show: Timestamp -> string)
    ensures Transcript([m1, m2, m3], nicks, verbose, show)
         == Format(m1, None, nicks, verbose, show) + Format(m2, Some(m1), nicks, verbose, show)
            + Format(m3, Some(m2), nicks, verbose, show)
  {
    FirstOfThree(m1, m2, m3);
    RenderCons(m1, [m2, m3], None, nicks, verbose, show);
    TwoTurns(m2, m3, Some(m1), nicks, verbose, show);
    ConcatAssoc(Format(m1, None, nicks, verbose, show), Format(m2, Some(m1), nicks, verbose, show),
                Format(m3, Some(m2), nicks, verbose, show));
  }

  lemma FirstOfThree(m1: Message, m2: Message, m3: Message)
    ensures [m1] + [m2, m3] == [m1, m2, m3]
  {
  }

  lemma ConcatAssoc(a: string, b: string, c: string)
    ensures a + (b + c) == a + b + c
  {
  }

  /** The fold on a message in front of others: that message's turn, then the rest. */
  lemma RenderCons(m: Message, rest: seq<Message>, prev: Option<Message>, nicks: seq<string>, verbose: bool,
                   show: Timestamp -> string)
    ensures Render([m] + rest, prev, nicks, verbose, show)
         == Format(m, prev, nicks, verbose, show) + Render(rest, Some(m), nicks, verbose, show)
  {
    assert ([m] + rest)[1..] == rest;
  }

  /**
    Consecutive turns by one speaker merge: the second loses its header and
    timestamp and follows the first with no separator, so the transcript of
    the two is that of one message holding both texts. The transcript cannot
    be split back into the original bodies.
   */
  lemma CollapsedTurnsMerge(m1: Message, m2: Message, nicks: seq<string>, verbose: bool,
                            show: Timestamp -> string)
    requires m1.nickname == m2.nickname
    requires forall j :: 0 <= j < |nicks| ==>
      !(nicks[j] <= m1.text) && !(nicks[j] <= m2.text) && !(nicks[j] <= m1.text + m2.text)
    ensures Transcript([m1, m2], nicks, verbose, show)
         == Transcript([Message(m1.timestamp, m1.nickname, m1.text + m2.text)], nicks, verbose, show)
  {
    var merged := Message(m1.timestamp, m1.nickname, m1.text + m2.text);
    var head := StampLine(m1.timestamp, verbose, show) + SaidLine(m1.nickname);
    calc {
      Transcript([m1, m2], nicks, verbose, show);
    == { TwoTurns(m1, m2, None, nicks, verbose, show); }
      Format(m1, None, nicks, verbose, show) + Format(m2, Some(m1), nicks, verbose, show);
    == { UnaddressedTextIsVerbatim(m1, None, nicks, verbose, show);
         UnaddressedTextIsVerbatim(m2, Some(m1), nicks, verbose, show); }
      head + m1.text + m2.text;
    == { assert head + m1.text + m2.text == head + (m1.text + m2.text); }
      head + merged.text;
    == { UnaddressedTextIsVerbatim(merged, None, nicks, verbose, show); }
      Format(merged, None, nicks, verbose, show);
    == { OneTurn(merged, None, nicks, verbose, show); }
      Transcript([merged], nicks, verbose, show);
    }
  }

  /** The fold over two messages: the first against `prev`, the second against the first. */
  lemma TwoTurns(m1: Message, m2: Message, prev: Option<Message>, nicks: seq<string>, verbose: bool,
                 show: Timestamp -> string)
    ensures Render([m1, m2], prev, nicks, verbose, show)
         == Format(m1, prev, nicks, verbose, show) + Format(m2, Some(m1), nicks, verbose, show)
  {
    RenderCons(m1, [m2], prev, nicks, verbose, show);
    assert [m1] + [m2] == [m1, m2];
    OneTurn(m2, Some(m1), nicks, verbose, show);
  }

  /** The fold over one message is that message's turn. */
  lemma OneTurn(m: Message, prev: Option<Message>, nicks: seq<string>, verbose: bool, show: Timestamp -> string)
    ensures Render([m], prev, nicks, verbose, show) == Format(m, prev, nicks, verbose, show)
  {
    assert [m][1..] == [];
    assert Render([m][1..], Some(m), nicks, verbose, show) == "";
    assert Render([m], prev, nicks, verbose, show) == Format(m, prev, nicks, verbose, show) + "";
  }

  /** No text starts with both "alice" and "bob": they differ in the first character. */
  lemma AliceOrBob(text: string)
    ensures AtMostOneAddressee(["alice", "bob"], text)
  {
    forall n, m | n in ["alice", "bob"] && m in ["alice", "bob"] && n <= text && m <= text
      ensures n == m
    {
      assert n[0] == text[0] == m[0];
    }
  }

  /**
    The worked example: alice's second line loses its header, and bob's
    "alice: good thanks" becomes a reply to alice with the address removed,
    whichever order the nickname set {alice, bob} is iterated in.
   */
  lemma AliceAndBob(m1: Message, m2: Message, m3: Message, nicks: seq<string>, show: Timestamp -> string)
    requires m1.nickname == "alice" && m1.text == "hello there"
    requires m2.nickname == "alice" && m2.text == "how are you"
    requires m3.nickname == "bob" && m3.text == "alice: good thanks"
    requires forall n :: n in nicks <==> n in ["alice", "bob"]
    ensures Transcript([m1, m2, m3], nicks, false, show)
         == SaidLine("alice") + "hello there" + "how are you" + RepliedLine("bob", "alice") + "good thanks"
  {
    var listed := ["alice", "bob"];
    var msgs := [m1, m2, m3];
    AliceAndBobListed(m1, m2, m3, show);
    AliceOrBob(m1.text);
    AliceOrBob(m2.text);
    AliceOrBob(m3.text);
    RenderIgnoresOrder(msgs, None, listed, nicks, false, show);
  }

  /** The worked example with the nicknames iterated alice first. */
  lemma AliceAndBobListed(m1: Message, m2: Message, m3: Message, show: Timestamp -> string)
    requires m1.nickname == "alice" && m1.text == "hello there"
    requires m2.nickname == "alice" && m2.text == "how are you"
    requires m3.nickname == "bob" && m3.text == "alice: good thanks"
    ensures Transcript([m1, m2, m3], ["alice", "bob"], false, show)
         == SaidLine("alice") + "hello there" + "how are you" + RepliedLine("bob", "alice") + "good thanks"
  {
    var nicks := ["alice", "bob"];
    AliceOpens(m1, nicks, show);
    AliceContinues(m1, m2, nicks, show);
    BobReplies(m2, m3, nicks, show);
    ThreeMessages(m1, m2, m3, nicks, false, show);
  }

  lemma AliceOpens(m1: Message, nicks: seq<string>, show: Timestamp -> string)
    requires m1.nickname == "alice" && m1.text == "hello there" && nicks == ["alice", "bob"]
    ensures Format(m1, None, nicks, false, show) == SaidLine("alice") + "hello there"
  {
    assert nicks[0][0] != m1.text[0] && nicks[1][0] != m1.text[0];
    UnaddressedTextIsVerbatim(m1, None, nicks, false, show);
    assert "" + SaidLine("alice") == SaidLine("alice");
  }

  lemma AliceContinues(m1: Message, m2: Message, nicks: seq<string>, show: Timestamp -> string)
    requires m1.nickname == m2.nickname == "alice" && m2.text == "how are you" && nicks == ["alice", "bob"]
    ensures Format(m2, Some(m1), nicks, false, show) == "how are you"
  {
    assert nicks[0][0] != m2.text[0] && nicks[1][0] != m2.text[0];
    UnaddressedTextIsVerbatim(m2, Some(m1), nicks, false, show);
  }

  lemma BobReplies(m2: Message, m3: Message, nicks: seq<string>, show: Timestamp -> string)
    requires m2.nickname == "alice" && m3.nickname == "bob" && m3.text == "alice: good thanks"
    requires nicks == ["alice", "bob"]
    ensures Format(m3, Some(m2), nicks, false, show) == RepliedLine("bob", "alice") + "good thanks"
  {
    assert FirstMatch(nicks, m3.text, 0);
    assert m3.text == nicks[0] + [] + ":" + " good thanks";
    AddressedReply(m3, Some(m2), nicks, false, show, 0, [], " good thanks");
    GoodThanksIsStripped();
    assert "" + RepliedLine("bob", "alice") == RepliedLine("bob", "alice");
  }
}

=== FILE: fetch.dfy ===
/**
  The acceptance filter of `get_messages` (asc/cli.py): each parsed row of each
  day's log is kept when it is a record, not older than the cutoff, and not by
  an ignored nickname; every kept speaker joins the nickname set.
 */
module Fetch {
  import opened Options
  import opened Messages

  /** A record the loop keeps: not before the cutoff and not from an ignored nickname. */
  predicate Keep(m: Message, cutoff: Timestamp, ignore: seq<string>) {
    !(m.timestamp < cutoff) && m.nickname !in ignore
  }

  /** The rows the loop appends to `context.messages`, in their original order. */
  function Accept(rows: seq<Option<Message>>, cutoff: Timestamp, ignore: seq<string>): (r: seq<Message>)
    ensures |r| <= |rows|
    ensures forall k :: 0 <= k < |r| ==> Keep(r[k], cutoff, ignore)
    ensures forall m :: m in r <==> Some(m) in rows && Keep(m, cutoff, ignore)
    decreases |rows|
  {
    if |rows| == 0 then []
    else
      var rest := Accept(rows[1..], cutoff, ignore);
      assert forall m :: Some(m) in rows <==> rows[0] == Some(m) || Some(m) in rows[1..];
      match rows[0]
      case None => rest
      case Some(m) => if Keep(m, cutoff, ignore) then [m] + rest else rest
  }

  /** `sub` picks records out of `rows` in order (an order-preserving subsequence). */
  predicate Embeds(sub: seq<Message>, rows: seq<Option<Message>>)
    decreases |rows|
  {
    if |sub| == 0 then true
    else if |rows| == 0 then false
    else (rows[0] == Some(sub[0]) && Embeds(sub[1..], rows[1..])) || Embeds(sub, rows[1..])
  }

  /** The accepted messages are an order-preserving subsequence of the parsed rows. */
  lemma {:induction false} AcceptEmbeds(rows: seq<Option<Message>>, cutoff: Timestamp, ignore: seq<string>)
    ensures Embeds(Accept(rows, cutoff, ignore), rows)
    decreases |rows|
  {
    if |rows| > 0 {
      AcceptEmbeds(rows[1..], cutoff, ignore);
      var rest := Accept(rows[1..], cutoff, ignore);
      match rows[0]
      case None =>
        EmbedsSkip(rest, rows);
      case Some(m) =>
        if Keep(m, cutoff, ignore) {
          assert ([m] + rest)[1..] == rest;
        } else {
          EmbedsSkip(rest, rows);
        }
    }
  }

  lemma EmbedsSkip(sub: seq<Message>, rows: seq<Option<Message>>)
    requires |rows| > 0 && Embeds(sub, rows[1..])
    ensures Embeds(sub, rows)
  {
  }

  /** Filtering a concatenation filters each part: one day at a time is the same as all at once. */
  lemma {:induction false} AcceptAppend(a: seq<Option<Message>>, b: seq<Option<Message>>, cutoff: Timestamp,
                                        ignore: seq<string>)
    ensures Accept(a + b, cutoff, ignore) == Accept(a, cutoff, ignore) + Accept(b, cutoff, ignore)
    decreases |a|
  {
    if |a| == 0 {
      assert a + b == b;
    } else {
      assert (a + b)[0] == a[0];
      assert (a + b)[1..] == a[1..] + b;
      AcceptAppend(a[1..], b, cutoff, ignore);
    }
  }

  /** Every nickname that appears in `msgs`. */
  function Nicknames(msgs: seq<Message>): set<string> {
    set m | m in msgs :: m.nickname
  }

  lemma NicknamesSnoc(msgs: seq<Message>, m: Message)
    ensures Nicknames(msgs + [m]) == Nicknames(msgs) + {m.nickname}
  {
    assert forall x :: x in msgs + [m] <==> x in msgs || x == m;
  }

  /** Filtering one more row of the current day. */
  lemma AcceptRow(before: seq<Option<Message>>, rows: seq<Option<Message>>, j: int, cutoff: Timestamp,
                  ignore: seq<string>)
    requires 0 <= j < |rows|
    ensures Accept(before + rows[..j + 1], cutoff, ignore)
         == Accept(before + rows[..j], cutoff, ignore)
          + (match rows[j] case None => [] case Some(m) => if Keep(m, cutoff, ignore) then [m] else [])
  {
    AcceptAppend(before + rows[..j], [rows[j]], cutoff, ignore);
    assert before + rows[..j + 1] == (before + rows[..j]) + [rows[j]];
    assert [rows[j]][1..] == [];
  }

  /** All days' rows, in order. */
  function Flatten(days: seq<seq<Option<Message>>>): seq<Option<Message>>
    decreases |days|
  {
    if |days| == 0 then [] else Flatten(days[..|days| - 1]) + days[|days| - 1]
  }

  /**
    The filter loop of `get_messages` over every fetched day: `messages` and
    `nicknames` start empty and grow together, one accepted row at a time.
   */
  method GetMessages(days: seq<seq<Option<Message>>>, cutoff: Timestamp, ignore: seq<string>)
    returns (messages: seq<Message>, nicknames: set<string>)
    ensures messages == Accept(Flatten(days), cutoff, ignore)
    ensures nicknames == Nicknames(messages)
    ensures forall k :: 0 <= k < |messages| ==> Keep(messages[k], cutoff, ignore)
  {
    messages := [];
    nicknames := {};
    for d := 0 to |days|
      invariant messages == Accept(Flatten(days[..d]), cutoff, ignore)
      invariant nicknames == Nicknames(messages)
    {
      var rows := days[d];
      ghost var before := Flatten(days[..d]);
      assert before + rows[..0] == before;
      for j := 0 to |rows|
        invariant messages == Accept(before + rows[..j], cutoff, ignore)
        invariant nicknames == Nicknames(messages)
      {
        AcceptRow(before, rows, j, cutoff, ignore);
        match rows[j]
        case None =>
        case Some(message) =>
          if !(message.timestamp < cutoff) && message.nickname !in ignore {
            NicknamesSnoc(messages, message);
            nicknames := nicknames + {message.nickname};
            messages := messages + [message];
          }
      }
      assert rows[..|rows|] == rows;
      assert days[..d + 1][..d] == days[..d];
    }
    assert days[..|days|] == days;
  }
}

=== FILE: message.dfy ===
/**
  One IRC log record and how it is rendered into chat text (asc/message.py):
  same-speaker collapse, reply detection by nickname prefix, and the
  "said" / "replied to" header lines.
 */
module Messages {
  import opened Options
  import opened PyStr

  /** A naive UTC datetime; the model keeps only its order. */
  type Timestamp = int

  /** One chat event: who said what, when. */
  datatype Message = Message(timestamp: Timestamp, nickname: string, text: string)

  /** Anything `Message.__eq__` can be handed: a Message or some other Python object. */
  datatype Value = MessageValue(msg: Message) | Foreign

  /** `Message.__eq__`: field-wise comparison, and never equal to a non-Message. */
  function Equals(self: Message, other: Value): (r: bool)
    ensures r <==> other == MessageValue(self)
  {
    match other
    case Foreign => false
    case MessageValue(m) =>
      self.timestamp == m.timestamp && self.nickname == m.nickname && self.text == m.text
  }

  // ---------------------------------------------------------------------------
  // The timestamp text carried by a log row's `id` attribute
  // ---------------------------------------------------------------------------

  /** How many characters of the id follow the `t` marker: date and time to the second. */
  const IsoSecondsLength := 19

  function Min(a: int, b: int): int {
    if a <= b then a else b
  }

  /**
    The id-slicing step of `parse_message_from_tr`: a missing or empty id gives
    no record; an id starting with `t` keeps at most the 19 characters after it;
    any other id is kept whole.
   */
  function IdTimestampText(id: Option<string>): (r: Option<string>)
    ensures r.None? <==> (id.None? || id.value == "")
    ensures r.Some? && id.value[0] == 't' ==>
      && |r.value| == Min(IsoSecondsLength, |id.value| - 1)
      && r.value <= id.value[1..]
    ensures r.Some? && id.value[0] != 't' ==> r == id
  {
    match id
    case None => None
    case Some(s) =>
      if s == "" then None
      else if s[0] == 't' then Some(s[1..Min(IsoSecondsLength + 1, |s|)])
      else Some(s)
  }

  /** An id `t` + a date-and-time to the second + any suffix yields exactly that date and time. */
  lemma IdRecoversIsoSeconds(iso: string, suffix: string)
    requires |iso| == IsoSecondsLength
    ensures IdTimestampText(Some("t" + iso + suffix)) == Some(iso)
  {
    var s := "t" + iso + suffix;
    assert s[1..IsoSecondsLength + 1] == iso;
  }

  // ---------------------------------------------------------------------------
  // Rendering
  // ---------------------------------------------------------------------------

  /** The default header naming the speaker. */
  function SaidLine(nick: string): string {
    "\n" + nick + " said:\n"
  }

  /** The header used when the text addresses another nickname. */
  function RepliedLine(nick: string, to: string): string {
    "\n" + nick + " replied to " + to + ":\n"
  }

  /** The timestamp line: present only when verbose. */
  function StampLine(t: Timestamp, verbose: bool, show: Timestamp -> string): string {
    if verbose then "\n" + show(t) else ""
  }

  /** `cur` continues the previous speaker's turn (a Message object is always truthy). */
  predicate Continues(cur: Message, prev: Option<Message>) {
    prev.Some? && prev.value.nickname == cur.nickname
  }

  /** `nicks[i]` is a prefix of `text` and no earlier nickname is. */
  predicate FirstMatch(nicks: seq<string>, text: string, i: int) {
    && 0 <= i < |nicks|
    && nicks[i] <= text
    && forall j :: 0 <= j < i ==> !(nicks[j] <= text)
  }

  /** The loop over `nicknames`: the position of the first nickname that `text` starts with. */
  function FirstReply(nicks: seq<string>, text: string): (r: Option<nat>)
    ensures r.Some? ==> FirstMatch(nicks, text, r.value)
    ensures r.None? ==> forall j :: 0 <= j < |nicks| ==> !(nicks[j] <= text)
    decreases |nicks|
  {
    if |nicks| == 0 then None
    else if nicks[0] <= text then Some(0)
    else
      match FirstReply(nicks[1..], text)
      case None => None
      case Some(i) => Some(i + 1)
  }

  /** The first match is the only one `FirstReply` can report. */
  lemma FirstMatchIsUnique(nicks: seq<string>, text: string, i: int)
    requires FirstMatch(nicks, text, i)
    ensures FirstReply(nicks, text) == Some(i)
  {
  }

  /**
    What is left of a message once the addressed nickname is cut off: stripped,
    then one leading `:` dropped and stripped again.
   */
  function ReplyBody(rest: string): (r: string)
    ensures Trimmed(r)
  {
    var m := Strip(rest);
    StripSpec(rest);
    if |m| > 0 && m[0] == ':' then StripSpec(m[1..]); Strip(m[1..]) else m
  }

  /** The `timestamp` local of `Message.format`: a verbose line, dropped for a continued turn. */
  function TimestampPart(cur: Message, prev: Option<Message>, verbose: bool,
                         show: Timestamp -> string): string
  {
    if Continues(cur, prev) then "" else StampLine(cur.timestamp, verbose, show)
  }

  /**
    The `context` local: "said" unless the turn continues, and "replied to" for
    a reply to a non-empty nickname whatever the previous speaker.
   */
  function ContextPart(cur: Message, prev: Option<Message>, nicks: seq<string>): string {
    var said := if Continues(cur, prev) then "" else SaidLine(cur.nickname);
    match FirstReply(nicks, cur.text)
    case None => said
    case Some(i) => if nicks[i] != "" then RepliedLine(cur.nickname, nicks[i]) else said
  }

  /** The `msg` local: the text, minus the first nickname it starts with and that reply's padding. */
  function MsgPart(cur: Message, nicks: seq<string>): string {
    match FirstReply(nicks, cur.text)
    case None => cur.text
    case Some(i) => ReplyBody(cur.text[|nicks[i]|..])
  }

  /**
    `Message.format`: timestamp line, header and text. `show` renders a
    timestamp the way Python's `datetime.__str__` does.
   */
  function Format(cur: Message, prev: Option<Message>, nicks: seq<string>, verbose: bool,
                  show: Timestamp -> string): string
  {
    TimestampPart(cur, prev, verbose, show) + ContextPart(cur, prev, nicks) + MsgPart(cur, nicks)
  }

  // ---------------------------------------------------------------------------
  // Properties of Format
  // ---------------------------------------------------------------------------

  /** Non-verbose output never consults the timestamp: it has no timestamp line at all. */
  lemma PlainNeverShowsTime(cur: Message, prev: Option<Message>, nicks: seq<string>,
                            show1: Timestamp -> string, show2: Timestamp -> string)
    ensures Format(cur, prev, nicks, false, show1) == Format(cur, prev, nicks, false, show2)
    ensures Format(cur, prev, nicks, false, show1) == ContextPart(cur, prev, nicks) + MsgPart(cur, nicks)
  {
  }

  /** Verbose output is the plain output behind one timestamp line, which a continued turn drops. */
  lemma VerboseIsStampedPlain(cur: Message, prev: Option<Message>, nicks: seq<string>,
                              show: Timestamp -> string)
    ensures Format(cur, prev, nicks, true, show)
         == (if Continues(cur, prev) then "" else "\n" + show(cur.timestamp))
            + Format(cur, prev, nicks, false, show)
  {
    var c, m := ContextPart(cur, prev, nicks), MsgPart(cur, nicks);
    assert Format(cur, prev, nicks, false, show) == "" + c + m;
  }

  /** With no nickname at the start of the text, the text is rendered verbatim under the usual header. */
  lemma UnaddressedTextIsVerbatim(cur: Message, prev: Option<Message>, nicks: seq<string>,
                                  verbose: bool, show: Timestamp -> string)
    requires forall j :: 0 <= j < |nicks| ==> !(nicks[j] <= cur.text)
    ensures !Continues(cur, prev) ==>
      Format(cur, prev, nicks, verbose, show)
        == StampLine(cur.timestamp, verbose, show) + SaidLine(cur.nickname) + cur.text
    ensures Continues(cur, prev) ==> Format(cur, prev, nicks, verbose, show) == cur.text
  {
    assert FirstReply(nicks, cur.text) == None;
    assert MsgPart(cur, nicks) == cur.text;
    if Continues(cur, prev) {
      assert Format(cur, prev, nicks, verbose, show) == "" + "" + cur.text;
    }
  }

  /**
    A text starting with a non-empty nickname gets the "replied to" header naming
    the first such nickname, even right after the same speaker's previous line.
   */
  lemma ReplyHeaderWins(cur: Message, prev: Option<Message>, nicks: seq<string>,
                        verbose: bool, show: Timestamp -> string, i: int)
    requires FirstMatch(nicks, cur.text, i) && nicks[i] != ""
    ensures !Continues(cur, prev) ==>
      Format(cur, prev, nicks, verbose, show)
        == StampLine(cur.timestamp, verbose, show) + RepliedLine(cur.nickname, nicks[i])
           + ReplyBody(cur.text[|nicks[i]|..])
    ensures Continues(cur, prev) ==>
      Format(cur, prev, nicks, verbose, show)
        == RepliedLine(cur.nickname, nicks[i]) + ReplyBody(cur.text[|nicks[i]|..])
  {
    FirstMatchIsUnique(nicks, cur.text, i);
    var c, m := RepliedLine(cur.nickname, nicks[i]), ReplyBody(cur.text[|nicks[i]|..]);
    assert ContextPart(cur, prev, nicks) == c;
    assert MsgPart(cur, nicks) == m;
    if Continues(cur, prev) {
      assert Format(cur, prev, nicks, verbose, show) == "" + c + m;
      assert "" + c + m == c + m;
    }
  }

  /**
    The empty nickname is a prefix of every text: when it is reached first, the
    text is stripped (and loses one leading `:`), but since `""` is falsy the
    header stays the ordinary one.
   */
  lemma EmptyNicknameOnlyStrips(cur: Message, prev: Option<Message>, nicks: seq<string>,
                                verbose: bool, show: Timestamp -> string, i: int)
    requires 0 <= i < |nicks| && nicks[i] == ""
    requires forall j :: 0 <= j < i ==> !(nicks[j] <= cur.text)
    ensures !Continues(cur, prev) ==>
      Format(cur, prev, nicks, verbose, show)
        == StampLine(cur.timestamp, verbose, show) + SaidLine(cur.nickname) + ReplyBody(cur.text)
    ensures Continues(cur, prev) ==> Format(cur, prev, nicks, verbose, show) == ReplyBody(cur.text)
  {
    assert FirstMatch(nicks, cur.text, i);
    FirstMatchIsUnique(nicks, cur.text, i);
    assert cur.text[|nicks[i]|..] == cur.text;
    assert MsgPart(cur, nicks) == ReplyBody(cur.text);
    if Continues(cur, prev) {
      assert Format(cur, prev, nicks, verbose, show) == "" + "" + ReplyBody(cur.text);
    }
  }

  /**
    First match wins: once nickname `i` matches, the nicknames after it, whatever
    they are (longer ones included), never change the output.
   */
  lemma LaterCandidatesIgnored(cur: Message, prev: Option<Message>, nicks: seq<string>,
                               other: seq<string>, verbose: bool, show: Timestamp -> string, i: int)
    requires FirstMatch(nicks, cur.text, i)
    requires i < |other| && other[..i + 1] == nicks[..i + 1]
    ensures Format(cur, prev, other, verbose, show) == Format(cur, prev, nicks, verbose, show)
  {
    assert forall j :: 0 <= j <= i ==> other[j] == nicks[..i + 1][j] == nicks[j];
    assert FirstMatch(other, cur.text, i);
    FirstMatchIsUnique(nicks, cur.text, i);
    FirstMatchIsUnique(other, cur.text, i);
  }

  /** At most one distinct nickname in `nicks` is a prefix of `text`. */
  predicate AtMostOneAddressee(nicks: seq<string>, text: string) {
    forall n, m :: n in nicks && m in nicks && n <= text && m <= text ==> n == m
  }

  /**
    When the nickname set offers at most one match, iteration order does not
    matter: any two orderings of the same set render the same text.
   */
  lemma UnambiguousReplyIgnoresOrder(cur: Message, prev: Option<Message>, a: seq<string>,
                                     b: seq<string>, verbose: bool, show: Timestamp -> string)
    requires forall n :: n in a <==> n in b
    requires AtMostOneAddressee(a, cur.text)
    ensures Format(cur, prev, a, verbose, show) == Format(cur, prev, b, verbose, show)
  {
    var ra, rb := FirstReply(a, cur.text), FirstReply(b, cur.text);
    if ra.Some? {
      var n := a[ra.value];
      assert n in b;
      var k :| 0 <= k < |b| && b[k] == n;
      assert b[k] <= cur.text;
      assert rb.Some?;
      assert b[rb.value] in a;
      assert b[rb.value] == n;
    } else {
      forall j | 0 <= j < |b|
        ensures !(b[j] <= cur.text)
      {
        assert b[j] in a;
      }
      assert rb.None?;
    }
  }

  /** The `nick: message` convention: spaces, one colon, and the body's own padding are removed. */
  lemma {:induction false} AddressedBody(ws: string, body: string)
    requires AllSpace(ws)
    ensures ReplyBody(ws + ":" + body) == Strip(body)
  {
    var core := Strip(body);
    var k := |body| - |LStrip(body)|;
    StripSpec(body);
    FramesSplits(body, core, k);
    var p, t := body[..k], body[k + |core|..];
    if |core| > 0 {
      AddressedCore(ws, p, core, t);
    } else {
      AllSpaceConcat(p, t);
      AddressedBlank(ws, p + t);
    }
  }

  /** A colon, then padding around a non-empty trimmed core: the reply body is the core. */
  lemma AddressedCore(ws: string, p: string, core: string, t: string)
    requires AllSpace(ws) && AllSpace(p) && AllSpace(t) && Trimmed(core) && |core| > 0
    ensures ReplyBody(ws + ":" + (p + core + t)) == core
  {
    var m := ":" + p + core;
    assert ws + ":" + (p + core + t) == ws + m + t;
    StripOf(ws, m, t);
    assert m[1..] == p + core + [];
    StripOf(p, core, []);
  }

  /** A colon followed by nothing but whitespace leaves an empty reply body. */
  lemma AddressedBlank(ws: string, blank: string)
    requires AllSpace(ws) && AllSpace(blank)
    ensures ReplyBody(ws + ":" + blank) == ""
  {
    StripOf(ws, ":", blank);
    assert ":"[1..] == [] + [] + [];
    StripOf([], [], []);
  }

  /**
    A reply written `nick: message` (any spaces before the colon) is rendered
    under "replied to nick" with just the stripped message as its body.
   */
  lemma AddressedReply(cur: Message, prev: Option<Message>, nicks: seq<string>, verbose: bool,
                       show: Timestamp -> string, i: int, ws: string, body: string)
    requires FirstMatch(nicks, cur.text, i) && nicks[i] != ""
    requires AllSpace(ws) && cur.text == nicks[i] + ws + ":" + body
    ensures Format(cur, prev, nicks, verbose, show)
         == TimestampPart(cur, prev, verbose, show) + RepliedLine(cur.nickname, nicks[i]) + Strip(body)
  {
    FirstMatchIsUnique(nicks, cur.text, i);
    assert cur.text[|nicks[i]|..] == ws + ":" + body;
    AddressedBody(ws, body);
  }

  /** Only one colon is dropped: a second one stays in the body. */
  lemma OnlyOneColonDropped(ws: string, body: string)
    requires AllSpace(ws) && Trimmed(body)
    ensures ReplyBody(ws + ":" + ":" + body) == ":" + body
  {
    assert ws + ":" + ":" + body == ws + ":" + (":" + body);
    AddressedBody(ws, ":" + body);
    StripOf([], ":" + body, []);
    assert [] + (":" + body) + [] == ":" + body;
  }

  /**
    When what is left does not start with a colon once its leading whitespace
    is gone, it is only stripped.
   */
  lemma UncolonedBodyIsStripped(rest: string)
    requires |LStrip(rest)| == 0 || LStrip(rest)[0] != ':'
    ensures ReplyBody(rest) == Strip(rest)
  {
    var m := Strip(rest);
    RStripSpec(LStrip(rest));
    if |m| > 0 {
      assert m[0] == LStrip(rest)[0];
    }
  }

  /** In particular, a rest with no colon anywhere is only stripped. */
  lemma ColonFreeBodyIsStripped(rest: string)
    requires ':' !in rest
    ensures ReplyBody(rest) == Strip(rest)
  {
    LStripSpec(rest);
    var l := LStrip(rest);
    if |l| > 0 {
      assert l[0] == rest[|rest| - |l|] && rest[|rest| - |l|] in rest;
    }
    UncolonedBodyIsStripped(rest);
  }

  /**
    A nickname that is only the start of a longer word still counts as the
    addressee: for "al" against "alice: hi" the reply is to "al", and the rest,
    "ice: hi", is only stripped.
   */
  lemma PartialNicknameStillReplies(cur: Message, prev: Option<Message>, nicks: seq<string>,
                                    verbose: bool, show: Timestamp -> string, i: int)
    requires FirstMatch(nicks, cur.text, i) && nicks[i] != ""
    requires |nicks[i]| < |cur.text|
    requires !IsSpace(cur.text[|nicks[i]|]) && cur.text[|nicks[i]|] != ':'
    ensures Format(cur, prev, nicks, verbose, show)
         == TimestampPart(cur, prev, verbose, show) + RepliedLine(cur.nickname, nicks[i])
            + Strip(cur.text[|nicks[i]|..])
  {
    var rest := cur.text[|nicks[i]|..];
    FirstMatchIsUnique(nicks, cur.text, i);
    assert LStrip(rest) == rest;
    UncolonedBodyIsStripped(rest);
  }

  /**
    Reply detection depends on the set's iteration order when two nicknames
    match: "bob" and "bobby" against "bobby: hi" give different transcripts.
   */
  lemma AmbiguousReplyDependsOnOrder(t: Timestamp, show: Timestamp -> string)
    ensures var cur := Message(t, "carol", "bobby: hi");
      && Format(cur, None, ["bob", "bobby"], false, show) == RepliedLine("carol", "bob") + "by: hi"
      && Format(cur, None, ["bobby", "bob"], false, show) == RepliedLine("carol", "bobby") + "hi"
      && Format(cur, None, ["bob", "bobby"], false, show) != Format(cur, None, ["bobby", "bob"], false, show)
  {
    var cur := Message(t, "carol", "bobby: hi");
    ReplyToFirstListed(cur, "bob", "bobby", ["bob", "bobby"], show);
    assert cur.text[3..] == "by: hi";
    ByIsStripped();
    ReplyToFirstListed(cur, "bobby", "bob", ["bobby", "bob"], show);
    assert cur.text[5..] == ": hi";
    HiIsStripped();
  }

  /** With both nicknames matching, the one listed first is the one replied to. */
  lemma ReplyToFirstListed(cur: Message, first: string, second: string, nicks: seq<string>,
                           show: Timestamp -> string)
    requires nicks == [first, second] && first != "" && first <= cur.text
    ensures Format(cur, None, nicks, false, show)
         == RepliedLine(cur.nickname, first) + ReplyBody(cur.text[|first|..])
  {
    assert FirstMatch(nicks, cur.text, 0);
    ReplyHeaderWins(cur, None, nicks, false, show, 0);
    assert "" + RepliedLine(cur.nickname, first) == RepliedLine(cur.nickname, first);
  }

  lemma ByIsStripped()
    ensures ReplyBody("by: hi") == "by: hi"
  {
    StripOf([], "by: hi", []);
    assert [] + "by: hi" + [] == "by: hi";
  }

  lemma HiIsStripped()
    ensures ReplyBody(": hi") == "hi"
  {
    assert ": hi" == [] + ":" + " hi";
    AddressedBody([], " hi");
    assert " hi" == " " + "hi" + [];
    StripOf(" ", "hi", []);
  }

  lemma GoodThanksIsStripped()
    ensures Strip(" good thanks") == "good thanks"
  {
    assert " good thanks" == " " + "good thanks" + [];
    StripOf(" ", "good thanks", []);
  }
}

=== FILE: options.dfy ===
/** Python's `None`-or-a-value, as used for optional rows, ids and the previous message. */
module Options {
  datatype Option<+T> = None | Some(value: T)
}

=== FILE: pystr.dfy ===
/**
  The pieces of Python's `str` type the transcript engine relies on:
  `isspace`, `strip`, and splitting on (and joining with) a literal separator.
  Python's `startswith` is Dafny's prefix relation `<=` on sequences.
 */
module PyStr {
  import opened Options

  /** Python's `str.isspace()` for one character: the Unicode whitespace code points. */
  predicate IsSpace(c: char) {
    if c <= ' ' then c == ' ' || '\t' <= c <= '\r' || '\U{1C}' <= c
    else if c <= '\U{A0}' then c == '\U{85}' || c == '\U{A0}'
    else
      || c == '\U{1680}'
      || '\U{2000}' <= c <= '\U{200A}'
      || c == '\U{2028}' || c == '\U{2029}' || c == '\U{202F}' || c == '\U{205F}'
      || c == '\U{3000}'
  }

  predicate AllSpace(s: string) {
    forall i :: 0 <= i < |s| ==> IsSpace(s[i])
  }

  lemma AllSpaceConcat(a: string, b: string)
    requires AllSpace(a) && AllSpace(b)
    ensures AllSpace(a + b)
  {
    forall i | 0 <= i < |a + b|
      ensures IsSpace((a + b)[i])
    {
      if i < |a| { assert (a + b)[i] == a[i]; } else { assert (a + b)[i] == b[i - |a|]; }
    }
  }

  /** Neither end of `s` is whitespace. */
  predicate Trimmed(s: string) {
    |s| == 0 || (!IsSpace(s[0]) && !IsSpace(s[|s| - 1]))
  }

  /** Python's `s.lstrip()`. */
  function LStrip(s: string): string
    decreases |s|
  {
    if |s| > 0 && IsSpace(s[0]) then LStrip(s[1..]) else s
  }

  /** Python's `s.rstrip()`. */
  function RStrip(s: string): string
    decreases |s|
  {
    if |s| > 0 && IsSpace(s[|s| - 1]) then RStrip(s[..|s| - 1]) else s
  }

  /** Python's `s.strip()`. */
  function Strip(s: string): string {
    RStrip(LStrip(s))
  }

  /** `lstrip` leaves the suffix of `s` that follows its leading whitespace. */
  lemma {:induction false} LStripSpec(s: string)
    ensures var r := LStrip(s);
      && |r| <= |s| && r == s[|s| - |r|..]
      && AllSpace(s[..|s| - |r|])
      && (|r| == 0 || !IsSpace(r[0]))
    decreases |s|
  {
    if |s| > 0 && IsSpace(s[0]) {
      LStripSpec(s[1..]);
      var r := LStrip(s[1..]);
      assert s[..|s| - |r|] == [s[0]] + s[1..][..|s| - 1 - |r|];
    }
  }

  /** `rstrip` leaves the prefix of `s` that precedes its trailing whitespace. */
  lemma {:induction false} RStripSpec(s: string)
    ensures var r := RStrip(s);
      && r <= s
      && AllSpace(s[|r|..])
      && (|r| == 0 || !IsSpace(r[|r| - 1]))
    decreases |s|
  {
    if |s| > 0 && IsSpace(s[|s| - 1]) {
      RStripSpec(s[..|s| - 1]);
      var r := RStrip(s[..|s| - 1]);
      assert s[|r|..] == s[..|s| - 1][|r|..] + [s[|s| - 1]];
    }
  }

  /** `s` is `core` at offset `k` with only whitespace before and after it. */
  predicate Frames(s: string, core: string, k: int) {
    0 <= k <= |s| - |core| && s[k..k + |core|] == core && AllSpace(s[..k]) && AllSpace(s[k + |core|..])
  }

  /** `strip` leaves the trimmed infix of `s` between its leading and trailing whitespace. */
  lemma StripSpec(s: string)
    ensures Trimmed(Strip(s))
    ensures Frames(s, Strip(s), |s| - |LStrip(s)|)
  {
    var l := LStrip(s);
    LStripSpec(s);
    RStripSpec(l);
    var r := RStrip(l);
    var k := |s| - |l|;
    assert l == s[k..];
    assert s[k..k + |r|] == l[..|r|] == r;
    assert s[k + |r|..] == l[|r|..];
  }

  lemma {:induction false} LStripSkipsSpaces(a: string, x: string)
    requires AllSpace(a)
    ensures LStrip(a + x) == LStrip(x)
    decreases |a|
  {
    if |a| > 0 {
      assert (a + x)[1..] == a[1..] + x;
      LStripSkipsSpaces(a[1..], x);
    } else {
      assert a + x == x;
    }
  }

  lemma {:induction false} RStripSkipsSpaces(x: string, b: string)
    requires AllSpace(b)
    ensures RStrip(x + b) == RStrip(x)
    decreases |b|
  {
    if |b| > 0 {
      assert (x + b)[..|x + b| - 1] == x + b[..|b| - 1];
      RStripSkipsSpaces(x, b[..|b| - 1]);
    } else {
      assert x + b == x;
    }
  }

  /**
    Strip is determined by its contract: whatever surrounds a trimmed core with
    whitespace on both sides strips to exactly that core.
   */
  lemma {:induction false} StripOf(a: string, core: string, b: string)
    requires AllSpace(a) && AllSpace(b) && Trimmed(core)
    ensures Strip(a + core + b) == core
  {
    assert a + core + b == a + (core + b);
    LStripSkipsSpaces(a, core + b);
    if |core| > 0 {
      assert (core + b)[0] == core[0];
      assert LStrip(core + b) == core + b;
      RStripSkipsSpaces(core, b);
    } else {
      assert core + b == b + [];
      LStripSkipsSpaces(b, []);
    }
  }

  /** A string framed around `core` is its three parts put back together. */
  lemma FramesSplits(s: string, core: string, k: int)
    requires Frames(s, core, k)
    ensures s == s[..k] + core + s[k + |core|..]
  {
  }

  // ---------------------------------------------------------------------------
  // Splitting on a literal separator (Python's `re.split` with a pattern that
  // has no special characters and no groups, which is `str.split` on it).
  // ---------------------------------------------------------------------------

  /** `sep` occurs in `s` starting at index `i`. */
  predicate Occurs(s: string, sep: string, i: nat) {
    i + |sep| <= |s| && s[i..i + |sep|] == sep
  }

  predicate Contains(s: string, sep: string) {
    exists i: nat :: i <= |s| && Occurs(s, sep, i)
  }

  lemma OccursShift(s: string, sep: string, j: nat)
    requires |s| > 0
    ensures Occurs(s[1..], sep, j) <==> Occurs(s, sep, j + 1)
  {
    if j + |sep| <= |s[1..]| {
      assert s[1..][j..j + |sep|] == s[j + 1..j + 1 + |sep|];
    }
  }

  /** The leftmost occurrence of `sep` in `s`, if any. */
  function FirstOccurrence(s: string, sep: string): (r: Option<nat>)
    ensures r.Some? ==> Occurs(s, sep, r.value) && forall j: nat :: j < r.value ==> !Occurs(s, sep, j)
    ensures r.None? ==> !Contains(s, sep)
    decreases |s|
  {
    if |s| < |sep| then
      None
    else if s[..|sep|] == sep then
      assert Occurs(s, sep, 0);
      Some(0)
    else
      assert |s| > 0;
      match FirstOccurrence(s[1..], sep)
      case None =>
        forall j: nat | j <= |s|
          ensures !Occurs(s, sep, j)
        {
          if j > 0 { OccursShift(s, sep, j - 1); }
        }
        None
      case Some(i) =>
        OccursShift(s, sep, i);
        assert forall j: nat :: j < i + 1 ==> !Occurs(s, sep, j) by {
          forall j: nat | j < i + 1
            ensures !Occurs(s, sep, j)
          {
            if j > 0 { OccursShift(s, sep, j - 1); }
          }
        }
        Some(i + 1)
  }

  /** Python's `sep.join(parts)`. */
  function Join(parts: seq<string>, sep: string): string
    requires |parts| >= 1
    decreases |parts|
  {
    if |parts| == 1 then parts[0] else parts[0] + sep + Join(parts[1..], sep)
  }

  /** An occurrence inside a prefix of `s` is an occurrence in `s`. */
  lemma OccursInPrefix(s: string, sep: string, n: nat, j: nat)
    requires n <= |s| && Occurs(s[..n], sep, j)
    ensures Occurs(s, sep, j) && j + |sep| <= n
  {
    assert s[..n][j..j + |sep|] == s[j..j + |sep|];
  }

  /**
    Python's `re.split(sep, s)` for a literal `sep`: the pieces between the
    leftmost non-overlapping occurrences, of which there is always at least one.
   */
  function Split(s: string, sep: string): (parts: seq<string>)
    requires |sep| > 0
    ensures |parts| >= 1
    ensures Join(parts, sep) == s
    ensures forall k :: 0 <= k < |parts| ==> !Contains(parts[k], sep)
    ensures |parts| == 1 <==> !Contains(s, sep)
    ensures |parts| >= 2 ==> FirstOccurrence(s, sep) == Some(|parts[0]|)
    decreases |s|
  {
    match FirstOccurrence(s, sep)
    case None => [s]
    case Some(i) =>
      var rest := Split(s[i + |sep|..], sep);
      NothingBeforeFirst(s, sep, i);
      JoinCons(s[..i], rest, sep);
      OccursSplits(s, sep, i);
      [s[..i]] + rest
  }

  /** An occurrence cuts `s` into the text before it, `sep`, and the text after it. */
  lemma OccursSplits(s: string, sep: string, i: nat)
    requires Occurs(s, sep, i)
    ensures s == s[..i] + sep + s[i + |sep|..]
    ensures Contains(s, sep)
  {
    assert i <= |s|;
  }

  /** Nothing before the leftmost occurrence contains the separator. */
  lemma NothingBeforeFirst(s: string, sep: string, i: nat)
    requires |sep| > 0 && i <= |s|
    requires forall j: nat :: j < i ==> !Occurs(s, sep, j)
    ensures !Contains(s[..i], sep)
  {
    forall j: nat | j <= i && Occurs(s[..i], sep, j)
      ensures false
    {
      OccursInPrefix(s, sep, i, j);
    }
  }

  lemma JoinCons(head: string, rest: seq<string>, sep: string)
    requires |rest| >= 1
    ensures Join([head] + rest, sep) == head + sep + Join(rest, sep)
  {
    assert ([head] + rest)[1..] == rest;
  }

  /** The last piece of a join follows the last separator. */
  lemma {:induction false} JoinLast(parts: seq<string>, sep: string)
    requires |parts| >= 2
    ensures Join(parts, sep) == Join(parts[..|parts| - 1], sep) + sep + parts[|parts| - 1]
    decreases |parts|
  {
    var init := parts[..|parts| - 1];
    if |parts| > 2 {
      JoinLast(parts[1..], sep);
      assert parts[1..][..|parts[1..]| - 1] == init[1..];
      assert Join(init, sep) == init[0] + sep + Join(init[1..], sep);
    } else {
      assert init == [parts[0]];
    }
  }
}

=== FILE: summary.dfy ===
/**
  The `</think>` handling of `generate_html_summary` (asc/cli.py): the model's
  summary is split on every `</think>`; the last piece is the summary proper
  and every earlier piece becomes one italic paragraph of "thinking".
 */
module Summary {
  import opened PyStr

  const ThinkEnd: string := "</think>"

  /** `summary_parts`: the pieces between the `</think>` tags. */
  function Parts(summary: string): (parts: seq<string>)
    ensures |parts| >= 1
  {
    Split(summary, ThinkEnd)
  }

  /** `x` ends `s` and is preceded by a `</think>`. */
  predicate TaggedRest(s: string, x: string) {
    |x| + |ThinkEnd| <= |s| && x == s[|s| - |x|..] && Occurs(s, ThinkEnd, |s| - |x| - |ThinkEnd|)
  }

  /**
    `summary_parts[-1]`: the text after the last `</think>`, or the whole
    summary when there is none.
   */
  function Body(summary: string): (b: string)
    ensures |b| <= |summary| && b == summary[|summary| - |b|..]
    ensures !Contains(b, ThinkEnd)
    ensures Contains(summary, ThinkEnd) ==> TaggedRest(summary, b)
    ensures !Contains(summary, ThinkEnd) ==> b == summary
  {
    var parts := Parts(summary);
    var b := parts[|parts| - 1];
    if |parts| >= 2 then
      JoinLast(parts, ThinkEnd);
      var pre := Join(parts[..|parts| - 1], ThinkEnd);
      assert summary == pre + ThinkEnd + b;
      assert summary[|pre|..|pre| + |ThinkEnd|] == ThinkEnd;
      b
    else
      b
  }

  /** `summary_parts[:-1]`: the pieces before the last `</think>`, in order. */
  function Thoughts(summary: string): (ts: seq<string>)
    ensures forall k :: 0 <= k < |ts| ==> !Contains(ts[k], ThinkEnd)
    ensures |ts| == 0 <==> !Contains(summary, ThinkEnd)
  {
    var parts := Parts(summary);
    assert forall k :: 0 <= k < |parts| - 1 ==> parts[..|parts| - 1][k] == parts[k];
    parts[..|parts| - 1]
  }

  /** The thoughts and the body, joined back with the tag, give the summary again. */
  lemma ThoughtsThenBody(summary: string)
    ensures Join(Thoughts(summary) + [Body(summary)], ThinkEnd) == summary
  {
    var parts := Parts(summary);
    InitThenLast(parts, Thoughts(summary), Body(summary));
  }

  lemma InitThenLast(xs: seq<string>, init: seq<string>, last: string)
    requires |xs| > 0 && init == xs[..|xs| - 1] && last == xs[|xs| - 1]
    ensures init + [last] == xs
  {
  }

  function Paragraph(part: string): string {
    "<p>" + part + "</p>"
  }

  /** Each thought as one paragraph, in order. */
  function Paragraphs(ts: seq<string>): string
    decreases |ts|
  {
    if |ts| == 0 then "" else Paragraph(ts[0]) + Paragraphs(ts[1..])
  }

  /** `html_thinking`: the thoughts as paragraphs inside one italic element. */
  function ThinkingBlock(summary: string): string {
    "<i>" + Paragraphs(Thoughts(summary)) + "</i>"
  }

  lemma {:induction false} ParagraphsSnoc(ts: seq<string>, t: string)
    ensures Paragraphs(ts + [t]) == Paragraphs(ts) + Paragraph(t)
    decreases |ts|
  {
    if |ts| == 0 {
      assert ts + [t] == [t];
    } else {
      assert (ts + [t])[1..] == ts[1..] + [t];
      ParagraphsSnoc(ts[1..], t);
    }
  }

  /**
    `generate_html_summary`: split the summary, build the thinking block from
    every part but the last, and keep the last part as the body.
   */
  method HtmlThinking(summary: string) returns (thinking: string, body: string)
    ensures thinking == ThinkingBlock(summary)
    ensures body == Body(summary)
    ensures Join(Thoughts(summary) + [body], ThinkEnd) == summary
    ensures !Contains(summary, ThinkEnd) ==> thinking == "<i></i>" && body == summary
  {
    var parts := Split(summary, ThinkEnd);
    thinking := WrapThoughts(parts[..|parts| - 1]);
    body := parts[|parts| - 1];
    ThoughtsThenBody(summary);
    assert Paragraphs([]) == "";
  }

  /** The loop that opens `<i>`, appends one `<p>` element per thought, and closes `</i>`. */
  method WrapThoughts(thoughts: seq<string>) returns (html: string)
    ensures html == "<i>" + Paragraphs(thoughts) + "</i>"
  {
    html := "<i>";
    for i := 0 to |thoughts|
      invariant html == "<i>" + Paragraphs(thoughts[..i])
    {
      ParagraphsSnoc(thoughts[..i], thoughts[i]);
      assert thoughts[..i + 1] == thoughts[..i] + [thoughts[i]];
      html := html + "<p>" + thoughts[i] + "</p>";
    }
    assert thoughts[..|thoughts|] == thoughts;
    html := html + "</i>";
  }

  /** Two occurrences of `</think>` never overlap: the tag has no border. */
  lemma TagsDoNotOverlap(s: string, i: nat, j: nat)
    requires Occurs(s, ThinkEnd, i) && Occurs(s, ThinkEnd, j) && i < j
    ensures i + |ThinkEnd| <= j
  {
    if j < i + |ThinkEnd| {
      ShiftedOccurrence(s, ThinkEnd, i, j);
    }
  }

  /** Two overlapping occurrences of `sep` make `sep` start again at the shift between them. */
  lemma ShiftedOccurrence(s: string, sep: string, i: nat, j: nat)
    requires Occurs(s, sep, i) && Occurs(s, sep, j) && i < j < i + |sep|
    ensures sep[j - i] == sep[0]
  {
    assert s[i..i + |sep|][j - i] == s[j];
    assert s[j..j + |sep|][0] == s[j];
  }

  /** An occurrence inside the suffix of `s` that starts at `k` is one of the suffix. */
  lemma OccursInSuffix(s: string, k: nat, j: nat)
    requires k <= j && Occurs(s, ThinkEnd, j)
    ensures Occurs(s[k..], ThinkEnd, j - k)
  {
    assert s[k..][j - k..j - k + |ThinkEnd|] == s[j..j + |ThinkEnd|];
  }

  /**
    Of two tags that are each followed by the rest of `s`, the one whose rest
    `x` holds no tag is the later: its rest is the shorter.
   */
  lemma TagFreeRestIsShorter(s: string, x: string, y: string)
    requires TaggedRest(s, x) && !Contains(x, ThinkEnd) && TaggedRest(s, y)
    ensures |x| <= |y|
  {
    if |x| > |y| {
      TagsDoNotOverlap(s, |s| - |x| - |ThinkEnd|, |s| - |y| - |ThinkEnd|);
      OccursInSuffix(s, |s| - |x|, |s| - |y| - |ThinkEnd|);
    }
  }

  /**
    The body is exactly the text after the last tag: whenever the summary is
    `pre + "</think>" + post` with no tag in `post`, the body is `post`.
   */
  lemma BodyIsAfterLastTag(pre: string, post: string)
    requires !Contains(post, ThinkEnd)
    ensures Body(pre + ThinkEnd + post) == post
  {
    TagBeforeRest(pre, post);
    BodyOfTaggedRest(pre + ThinkEnd + post, post);
  }

  /** A tag-free rest of `s` that follows a tag is the body of `s`. */
  lemma BodyOfTaggedRest(s: string, post: string)
    requires TaggedRest(s, post) && !Contains(post, ThinkEnd) && Contains(s, ThinkEnd)
    ensures Body(s) == post
  {
    var b := Body(s);
    TagFreeRestIsShorter(s, b, post);
    TagFreeRestIsShorter(s, post, b);
  }

  /** In `pre + "</think>" + post` the tag sits right before `post`, which ends the string. */
  lemma TagBeforeRest(pre: string, post: string)
    ensures var s := pre + ThinkEnd + post;
      && TaggedRest(s, post)
      && Contains(s, ThinkEnd)
  {
    var s := pre + ThinkEnd + post;
    assert s[|pre|..|pre| + |ThinkEnd|] == ThinkEnd;
    assert Occurs(s, ThinkEnd, |pre|);
  }

  /** An occurrence that ends by index `n` is one of the prefix of length `n`. */
  lemma OccursBeforeCut(s: string, n: nat, j: nat)
    requires n <= |s| && Occurs(s, ThinkEnd, j) && j + |ThinkEnd| <= n
    ensures Occurs(s[..n], ThinkEnd, j)
  {
    assert s[..n][j..j + |ThinkEnd|] == s[j..j + |ThinkEnd|];
  }

  /** When `a` holds no tag, the tag right after it is the first in the summary. */
  lemma NoOccurrenceBefore(a: string, b: string, j: nat)
    requires !Contains(a, ThinkEnd) && j < |a| && Occurs(a + ThinkEnd + b, ThinkEnd, |a|)
    ensures !Occurs(a + ThinkEnd + b, ThinkEnd, j)
  {
    var s := a + ThinkEnd + b;
    if Occurs(s, ThinkEnd, j) {
      TagsDoNotOverlap(s, j, |a|);
      assert s[..|a|] == a;
      OccursBeforeCut(s, |a|, j);
    }
  }

  /**
    A summary with exactly one `</think>` has one thought, everything before
    the tag (an opening `<think>` included), and the body after it.
   */
  lemma OneTag(a: string, b: string)
    requires !Contains(a, ThinkEnd) && !Contains(b, ThinkEnd)
    ensures Thoughts(a + ThinkEnd + b) == [a]
    ensures Body(a + ThinkEnd + b) == b
    ensures ThinkingBlock(a + ThinkEnd + b) == "<i>" + Paragraph(a) + "</i>"
  {
    var s := a + ThinkEnd + b;
    assert Occurs(s, ThinkEnd, |a|) by {
      assert s[|a|..|a| + |ThinkEnd|] == ThinkEnd;
    }
    forall j: nat | j < |a|
      ensures !Occurs(s, ThinkEnd, j)
    {
      NoOccurrenceBefore(a, b, j);
    }
    assert Contains(s, ThinkEnd);
    assert FirstOccurrence(s, ThinkEnd) == Options.Some(|a|);
    assert s[|a| + |ThinkEnd|..] == b;
    assert s[..|a|] == a;
    var rest := Split(b, ThinkEnd);
    assert |rest| == 1;
    assert Join(rest, ThinkEnd) == rest[0];
    assert Parts(s) == [a] + rest == [a, b];
    assert Thoughts(s) == [a];
    BodyIsAfterLastTag(a, b);
    assert Paragraphs([a]) == Paragraph(a) + Paragraphs([]);
  }
}
